=== FILE: README.md ===
# ioat-dma ownership pool, in Dafny

A model of the Linux kernel module `ioat-dma`. The module lets user processes
share a small pool of I/OAT DMA engines to copy between regions of a dax
(memory-mapped persistent memory) device. The model covers three parts:

- **The pool manager** (`ioat-dma-mgr.c`): a list of engine records. Each record
  has an id, an owner (a thread-group id, or -1 for none), a DMA channel and a
  list of completion entries. The operations are discovery, first-fit acquire,
  owner-scoped find and release.
- **The ioctl handlers** (`ioat-dma-ioctl.c`): get the engine count, acquire an
  engine and roll the grant back if the id cannot be copied out, and run one
  copy.
- **The device entry points** (`ioat-dma-device.c`): close releases everything
  the caller owns, the ioctl dispatcher routes errors, and module exit empties
  every engine and the pool.

The pool is an immutable `Pool` value. Every operation is a pure function or a
short method that returns the pool it leaves behind. Kernel services are inputs:

- `copy_from_user` and `copy_to_user` become a fault flag or an `Option`.
- The dax path lookup is a function from path to device.
- The page lookup's error and the DMA engine's answers to one copy form a
  `Hardware` record: the page error, whether a descriptor was built, the
  jiffies left after the 5000 ms wait, and the final status. The handler's calls into the DMA API come back as a log.
- The WAIT_ALL drain outcome is an opaque input.

Files:

- `kernel.dfy`: errno values, `Tgid`, `Option` and `Result`.
- `ioat_dma_mgr.dfy`: module `DmaMgr`.
- `ioat_dma_ioctl.dfy`: module `DmaIoctl`.
- `ioat_dma_device.dfy`: module `DmaDevice`.

Facts about the source that shape the model:

- **Submit is synchronous.** `ioat_dma_ioctl_dma_submit` (ioat-dma-ioctl.c:33-88)
  waits for its copy before returning and never appends to `comp_list`. No
  modelled function fills a completion list; release and module exit only
  empty them.
- **Acquire's free test is `!(owner > 0)`.** The scan skips only engines whose
  owner is positive (`ioat-dma-mgr.c:53`), so an owner of 0 also counts as
  free. `IsFree` follows that test.
- **Find matches on the id field.** `find_ioat_dma_device` compares each
  engine's `device_id` with the argument (`ioat-dma-mgr.c:40`). On a valid pool
  the ids are the list positions (`IdsDense`).
- **Ids are 64-bit, as in the manager.** The header declares
  `find_ioat_dma_device(u32)`, while the manager defines it with a `u64`
  argument. The model uses the manager's version.
- **Engine records carry a completion list.** The header's `struct
  ioat_dma_device` has no `comp_list`, but the manager uses one. The model keeps
  the record as the manager uses it.
- **The counter wraps.** `n_dma_devices` is a `u32`. Discovery's counter wraps
  modulo 2^32, and so do the ids it hands out.

## Model

| member | source | states |
|---|---|---|
| DmaMgr.CreateDmaDevices | ioat-dma-mgr.c:10-35 | Engine k gets id k (modulo 2^32), the k-th channel, owner -1 and an empty completion list. The counter ends at the number of engines (as u32). The return is 0 even with zero channels. The resulting pool satisfies the invariant. |
| DmaMgr.IdsDense | ioat-dma-mgr.c:18-32 | On a valid pool within u32 range, each engine's id is its position, so ids are unique and dense. |
| DmaMgr.Find | ioat-dma-mgr.c:37-45 | The result is an engine whose id matches and whose owner is the caller, and the first such in list order. The result is none exactly when the caller owns no engine with that id. |
| DmaMgr.FindOwnedEngine | ioat-dma-mgr.c:37-45 | On a valid pool, find by the owner with id i returns exactly engine i. |
| DmaMgr.Acquire | ioat-dma-mgr.c:47-66 | Fails with ENODEV exactly when no engine is free. Otherwise it picks the first free engine in list order and gives it to the caller. Every other engine and the counter are unchanged, and the invariant is preserved. |
| DmaMgr.AcquireAsWritten | ioat-dma-mgr.c:52-65 | The driver's scan never yields NULL. With no free engine it ends on the list head and leaves the pool unchanged. When it lands on an engine it agrees with `Acquire`. |
| DmaMgr.AcquireAsWrittenMissesNoDevice | ioat-dma-mgr.c:52-65 | On an exhausted or empty pool, the driver's "no device" check passes the list head through, while the intended acquire returns ENODEV. |
| DmaMgr.AcquireThenFind | ioat-dma-mgr.c:40-59 | After a successful acquire, find by the acquirer with the granted id returns that engine, and find by any other process does not. |
| DmaMgr.Release | ioat-dma-mgr.c:68-82 | The engine's owner becomes -1 and its completion list becomes empty. Its id and channel are kept, no other engine changes, and the invariant is preserved. |
| DmaMgr.AcquireReleaseRollback | ioat-dma-mgr.c:52-80 | On a valid pool, releasing the engine just acquired restores the pool exactly. |
| DmaMgr.ReleaseThenAcquire | ioat-dma-mgr.c:52-80 | After any release, the next acquire by any process succeeds, at or before the released position. |
| DmaMgr.AcquireConsumesOne | ioat-dma-mgr.c:52-60 | A successful acquire lowers the number of free engines by exactly one. |
| DmaMgr.AcquireManyGrants | ioat-dma-mgr.c:47-66 | With F free engines, k acquires in a row grant exactly min(k, F). |
| DmaIoctl.GetDeviceNum | ioat-dma-ioctl.c:6-11 | Copies out the engine counter and returns 0, or returns -EFAULT if the copy faults. The pool is untouched. |
| DmaIoctl.GetDevice | ioat-dma-ioctl.c:13-25 | Returns -ENODEV exactly when no engine is free. Returns -EFAULT exactly when an engine was free but the id copy faulted. On any failure over a valid pool, the pool is unchanged, so the grant is rolled back. On success the pool is exactly `Acquire`'s result, so only the first free engine changed, and the id copied out is that engine's; the caller owns it. |
| DmaIoctl.Submit | ioat-dma-ioctl.c:33-88 | A page error returns its code before any mapping. Otherwise: no descriptor gives -EINVAL and nothing is submitted; a timed-out wait gives -ETIMEDOUT whatever the status; a status other than DMA_COMPLETE gives -EBUSY; 0 exactly on a completed transfer. Past the page check, each buffer is mapped once and unmapped once, after every map, in its mapped direction. The buffers stay mapped while the copy runs: prep, submit, issue, the wait and the status query all come before both unmaps. Prep is always called; a descriptor is submitted exactly when one was built, and then it is issued, waited for and queried. |
| DmaIoctl.SubmitAsWritten | ioat-dma-ioctl.c:48-85 | Same return code as `Submit`, and still one map and one unmap per buffer, but the unmap direction never matches the map direction. The same call order as `Submit`: every other call precedes both unmaps, and a built descriptor is submitted, issued, waited for and queried. |
| DmaDevice.CloseFile | ioat-dma-device.c:52-61 | Releases exactly the engines the caller owns and leaves the others untouched. Afterwards the caller owns nothing. It is a no-op when the caller owned nothing, always returns 0, and preserves the invariant. |
| DmaDevice.Ioctl | ioat-dma-device.c:63-120 | SUBMIT: -EFAULT on an argument fault, then -ENODEV on a failed path lookup or an engine the caller does not own. Only then does it run the copy, so the DMA API is reached only for the owner. WAIT_ALL: -EFAULT, then -ENODEV, then a nonzero drain result is passed through uncopied; after a clean drain, -EFAULT if the copy back faults and otherwise 0 with the completed count copied out. GET_DEVICE returns exactly `GetDevice`'s pool, code and copied value, GET_DEVICE_NUM its code and the counter, and unknown commands give -EINVAL. Nothing is copied back on SUBMIT or on any failing command. Only GET_DEVICE changes the pool as modelled (SUBMIT's writes to `comp` and `comp_in_use` are left out). It dispatches to the corrected `Submit` and `GetDevice` (see Findings). |
| DmaDevice.ModuleExit | ioat-dma-device.c:192-207 | The pool ends empty. Every completion entry of every engine is freed, in list order. Every engine's channel is released, in list order. |

## Left out

- Kernel DMA API: requesting channels, mapping and unmapping pages, preparing,
  submitting and issuing descriptors, querying status, `dmaengine_terminate_all`
  and `dma_release_channel`. These are foreign calls. Discovery takes the
  channels as a sequence. Submit takes `Hardware` and returns its calls as a
  log. Exit returns the channels it releases. Release's terminate-all call is
  not logged.
- Blocking and concurrency: the completion callback, `wait_for_completion_timeout`
  (its result is the `jiffiesLeft` input) and the spinlocks. Each pool operation
  is one atomic step. Find and close walk the list without the lock in the
  driver, and that race is not modelled.
- The WAIT_ALL drain: `ioat_dma_ioctl_dma_wait_all` is not part of this model.
  Its return code and completed count are inputs.
- `IOCTL_IOAT_DMA_WAIT_ALL` and `struct ioctl_dma_wait_args` are not defined in
  ioat-dma.h. The model takes the command as `CmdWaitAll` and the wait
  arguments' device id as an `Option` input (None when `copy_from_user` faults).
- DmaDevice.Ioctl: dispatches to the corrected handlers, not the driver's
  as written. SUBMIT runs `Submit`, so its log unmaps in the mapped
  directions where the driver unmaps `DMA_BIDIRECTIONAL`. GET_DEVICE runs
  `GetDevice` over `Acquire`, so an exhausted pool gives -ENODEV where the
  driver returns 0 with the list head's id. The as-written behaviour is in
  `SubmitAsWritten` and `AcquireAsWritten` (see Findings).
- Engine record fields `comp` and `comp_in_use`: the model's `Engine` drops
  them. Submit sets both (`init_completion` at ioat-dma-ioctl.c:59,
  `comp_in_use = true` at ioat-dma-ioctl.c:63), and nothing in the modelled
  code reads `comp_in_use`; `comp` only carries the completion callback,
  which is left out above.
- Filling a completion list: no function in the modelled files appends to
  `comp_list`, so the model never adds entries.
- `struct ioat_dma_completion_list_item` is not part of this model.
  `CompletionItem`'s fields are placeholders.
- ioctl command numbers (`_IOW`/`_IOR` encodings) are abstracted to the
  `Command` datatype.
- A failed `kzalloc` in discovery is not checked by the driver (it would
  dereference NULL) and is not modelled.
- Partial user-space copies: a faulting copy counts as copying nothing.
- `dax_get_device` is the `daxLookup` input. `dax_get_private`, `pfn_to_page`
  and the region address only feed the page-error input.
- Registration glue (`create_chardev`, `ioat_dma_init`, `ioat_dma_open`, the file
  operations table, class/device/cdev teardown in exit) is kernel plumbing.
- `test.c` (user-space benchmark), `test.py` (open-file smoke test) and the empty
  `ioat-dma.c` stub.

## Findings

| source | as written | input that shows it | evidently intended | confidence | as-written member | corrected member |
|---|---|---|---|---|---|---|
| ioat-dma-mgr.c:52-65 | When no engine is free, `list_for_each_entry` leaves the cursor on the list head's container, which is never NULL. The `-ENODEV` branch is dead, and GET_DEVICE hands out whatever id lies at the list head. | An empty pool (zero engines discovered), or one engine owned by tgid 100 with tgid 200 acquiring | return `-ENODEV` | high; not executed | DmaMgr.AcquireAsWritten | DmaMgr.Acquire |
| ioat-dma-ioctl.c:48-85 | Pages mapped `DMA_TO_DEVICE` and `DMA_FROM_DEVICE` are unmapped with `DMA_BIDIRECTIONAL`. The DMA API requires an unmap to use its map's direction. | `Hardware(None, true, 1, DmaComplete)`, i.e. any submit past the page check | unmap source `DMA_TO_DEVICE` and destination `DMA_FROM_DEVICE` | medium; not executed | DmaIoctl.SubmitAsWritten | DmaIoctl.Submit |

=== FILE: ioat_dma_device.dfy ===
/** The character-device entry points (ioat-dma-device.c): closing the file,
    the ioctl dispatcher and module exit, as pure routing over the pool.
    User-space copies are fault flags or `Option`s, the dax path lookup is a
    function from path to device, and the WAIT_ALL drain, whose body is not
    part of this model, is an opaque outcome. */
module DmaDevice {
  import opened Kernel
  import opened DmaMgr
  import opened DmaIoctl

  /** close(2) on the device file (ioat_dma_release): walk the list and
      release every engine the closing process owns. Always returns 0. */
  method CloseFile(p: Pool, caller: Tgid) returns (q: Pool, rc: int)
    ensures rc == 0
    ensures |q.engines| == |p.engines| && q.nDevices == p.nDevices
    ensures forall i :: 0 <= i < |p.engines| && p.engines[i].owner == caller ==> q.engines[i] == Released(p.engines[i])
    ensures forall i :: 0 <= i < |p.engines| && p.engines[i].owner != caller ==> q.engines[i] == p.engines[i]
    ensures forall i :: 0 <= i < |q.engines| ==> q.engines[i].owner != caller
    ensures (forall i :: 0 <= i < |p.engines| ==> p.engines[i].owner != caller) ==> q == p
    ensures Valid(p) ==> Valid(q)
  {
    q := p;
    var k := 0;
    while k < |q.engines|
      invariant 0 <= k <= |q.engines|
      invariant |q.engines| == |p.engines| && q.nDevices == p.nDevices
      invariant forall i :: 0 <= i < k && p.engines[i].owner == caller ==> q.engines[i] == Released(p.engines[i])
      invariant forall i :: 0 <= i < |p.engines| && (i >= k || p.engines[i].owner != caller) ==> q.engines[i] == p.engines[i]
      invariant Valid(p) ==> Valid(q)
    {
      if q.engines[k].owner == caller {
        q := Release(q, k);
      }
      k := k + 1;
    }
    if forall i :: 0 <= i < |p.engines| ==> p.engines[i].owner != caller {
      assert q.engines == p.engines;
    }
    rc := 0;
  }

  /** The commands the dispatcher knows, and any other number. */
  datatype Command = CmdSubmit | CmdGetDeviceNum | CmdGetDevice | CmdWaitAll | CmdUnsupported(code: nat)

  /** `struct ioctl_dma_args` as user space fills it in. */
  datatype SubmitArgs = SubmitArgs(deviceId: nat, deviceName: string, srcOffset: nat, dstOffset: nat, size: nat)

  /** The dax device a path resolves to: its region's physical start. */
  datatype DaxDevice = DaxDevice(regionStart: nat)

  /** What the WAIT_ALL drain answers: its return code and completed count. */
  datatype DrainOutcome = DrainOutcome(rc: int, completed: nat)

  /** Everything an ioctl call sees besides the pool: what `copy_from_user`
      reads (None when it faults), whether `copy_to_user` faults, the path
      lookup, the DMA API's answers to a submit and the drain's outcome. */
  datatype IoctlEnv = IoctlEnv(
    submitArgs: Option<SubmitArgs>,
    waitDeviceId: Option<nat>,
    copyToUserFaults: bool,
    daxLookup: string -> Option<DaxDevice>,
    hw: Hardware,
    drain: DrainOutcome)

  /** The dispatcher's answer: pool, return code, value copied back to user
      space, and the DMA API calls a submit made. */
  datatype IoctlReply = IoctlReply(pool: Pool, rc: int, copiedOut: Option<nat>, dmaCalls: seq<DmaCall>)

  /** The ioctl dispatcher (ioat_dma_ioctl). SUBMIT reads its arguments,
      resolves the dax path, then finds the engine among the caller's own;
      WAIT_ALL reads its arguments, finds the engine, drains it and copies
      the completed count back; the two GET commands go to their handlers;
      anything else is -EINVAL. The handlers are the corrected ones: SUBMIT
      runs `Submit`, which unmaps in the mapped directions, and GET_DEVICE
      runs `GetDevice` over `Acquire`, which returns -ENODEV on an exhausted
      pool. */
  function Ioctl(p: Pool, caller: Tgid, cmd: Command, env: IoctlEnv): (r: IoctlReply)
    ensures cmd != CmdGetDevice ==> r.pool == p
    ensures r.rc != 0 ==> r.copiedOut.None?
    ensures cmd == CmdSubmit ==> r.copiedOut.None?
    ensures Valid(p) ==> Valid(r.pool)
    ensures cmd.CmdUnsupported? ==> r.rc == -EINVAL && r.copiedOut.None?
    ensures cmd == CmdSubmit && env.submitArgs.None? ==> r.rc == -EFAULT && r.dmaCalls == []
    ensures cmd == CmdSubmit && env.submitArgs.Some? && env.daxLookup(env.submitArgs.value.deviceName).None?
      ==> r.rc == -ENODEV && r.dmaCalls == []
    ensures cmd == CmdSubmit && env.submitArgs.Some? && !Owns(p, env.submitArgs.value.deviceId, caller)
      ==> r.rc == -ENODEV && r.dmaCalls == []
    ensures cmd == CmdSubmit && env.submitArgs.Some? && env.daxLookup(env.submitArgs.value.deviceName).Some?
      && Owns(p, env.submitArgs.value.deviceId, caller)
      ==> r.rc == Submit(env.hw).rc && r.dmaCalls == Submit(env.hw).calls
    ensures r.dmaCalls != [] ==> cmd == CmdSubmit && Owns(p, env.submitArgs.value.deviceId, caller)
    ensures cmd == CmdWaitAll && env.waitDeviceId.None? ==> r.rc == -EFAULT
    ensures cmd == CmdWaitAll && env.waitDeviceId.Some? && !Owns(p, env.waitDeviceId.value, caller) ==> r.rc == -ENODEV
    ensures cmd == CmdWaitAll && env.waitDeviceId.Some? && Owns(p, env.waitDeviceId.value, caller) && env.drain.rc != 0
      ==> r.rc == env.drain.rc && r.copiedOut.None?
    ensures cmd == CmdWaitAll && r.rc == 0
      ==> r.copiedOut == Some(env.drain.completed) && env.drain.rc == 0 && !env.copyToUserFaults
    ensures cmd == CmdWaitAll && env.waitDeviceId.Some? && Owns(p, env.waitDeviceId.value, caller) && env.drain.rc == 0
      ==> r.rc == (if env.copyToUserFaults then -EFAULT else 0)
    ensures cmd == CmdGetDeviceNum ==> r.rc == (if env.copyToUserFaults then -EFAULT else 0)
    ensures cmd == CmdGetDeviceNum && !env.copyToUserFaults ==> r.copiedOut == Some(p.nDevices)
    ensures cmd == CmdGetDevice ==> var g := GetDevice(p, caller, env.copyToUserFaults);
      r.pool == g.pool && r.rc == g.rc && r.copiedOut == g.copiedOut
    ensures cmd == CmdGetDevice && r.rc == 0 ==> r.copiedOut.Some? && Owns(r.pool, r.copiedOut.value, caller)
    ensures cmd == CmdGetDevice && r.rc != 0 && Valid(p) ==> r.pool == p
  {
    match cmd
    case CmdSubmit =>
      (match env.submitArgs
       case None => IoctlReply(p, -EFAULT, None, [])
       case Some(args) =>
         if env.daxLookup(args.deviceName).None? then IoctlReply(p, -ENODEV, None, [])
         else if Find(p, args.deviceId, caller).None? then IoctlReply(p, -ENODEV, None, [])
         else
           var s := Submit(env.hw);
           IoctlReply(p, s.rc, None, s.calls))
    case CmdGetDeviceNum =>
      var g := GetDeviceNum(p, env.copyToUserFaults);
      IoctlReply(g.pool, g.rc, g.copiedOut, [])
    case CmdGetDevice =>
      var g := GetDevice(p, caller, env.copyToUserFaults);
      IoctlReply(g.pool, g.rc, g.copiedOut, [])
    case CmdWaitAll =>
      (match env.waitDeviceId
       case None => IoctlReply(p, -EFAULT, None, [])
       case Some(id) =>
         if Find(p, id, caller).None? then IoctlReply(p, -ENODEV, None, [])
         else if env.drain.rc != 0 then IoctlReply(p, env.drain.rc, None, [])
         else if env.copyToUserFaults then IoctlReply(p, -EFAULT, None, [])
         else IoctlReply(p, 0, Some(env.drain.completed), []))
    case CmdUnsupported(_) => IoctlReply(p, -EINVAL, None, [])
  }

  /** Every completion entry of a list of engines, engine by engine in list order. */
  function AllCompletions(s: seq<Engine>): seq<CompletionItem> {
    if s == [] then [] else s[0].compList + AllCompletions(s[1..])
  }

  lemma {:induction false} AllCompletionsAppend(a: seq<Engine>, b: seq<Engine>)
    ensures AllCompletions(a + b) == AllCompletions(a) + AllCompletions(b)
    decreases |a|
  {
    if a == [] {
      assert a + b == b;
    } else {
      assert (a + b)[1..] == a[1..] + b;
      AllCompletionsAppend(a[1..], b);
    }
  }

  /** What module exit hands back to the kernel: the completion entries it
      freed, in order, and the channels it released, in order. */
  datatype ExitLog = ExitLog(freed: seq<CompletionItem>, releasedChans: seq<Chan>)

  /** Module exit (ioat_dma_exit): unlink every engine, free each of its
      completion entries, release its channel. The list ends empty. */
  method ModuleExit(p: Pool) returns (q: Pool, log: ExitLog)
    ensures q.engines == [] && q.nDevices == p.nDevices
    ensures log.freed == AllCompletions(p.engines)
    ensures |log.releasedChans| == |p.engines|
    ensures forall i :: 0 <= i < |p.engines| ==> log.releasedChans[i] == p.engines[i].chan
  {
    var remaining := p.engines;
    var freed: seq<CompletionItem> := [];
    var chans: seq<Chan> := [];
    var k := 0;
    while remaining != []
      invariant 0 <= k <= |p.engines|
      invariant remaining == p.engines[k..]
      invariant freed == AllCompletions(p.engines[..k])
      invariant |chans| == k
      invariant forall i :: 0 <= i < k ==> chans[i] == p.engines[i].chan
      decreases |remaining|
    {
      var e := remaining[0];
      remaining := remaining[1..];
      var items := e.compList;
      var freedHere: seq<CompletionItem> := [];
      while items != []
        invariant freedHere + items == e.compList
        decreases |items|
      {
        freedHere := freedHere + [items[0]];
        items := items[1..];
      }
      assert p.engines[..k + 1] == p.engines[..k] + [e];
      AllCompletionsAppend(p.engines[..k], [e]);
      assert AllCompletions([e]) == e.compList;
      freed := freed + freedHere;
      chans := chans + [e.chan];
      k := k + 1;
    }
    assert p.engines[..k] == p.engines;
    q := Pool([], p.nDevices);
    log := ExitLog(freed, chans);
  }
}

=== FILE: ioat_dma_ioctl.dfy ===
/** The ioctl handlers (ioat-dma-ioctl.c): report the engine count, acquire
    an engine for the calling process, and run one memory-to-memory copy on
    an engine. The kernel DMA API is not modelled: what it would answer (a
    page error, whether a descriptor could be built, what the timed wait
    returned, the final transfer status) arrives as `Hardware`, and the calls
    the handler makes into that API are returned as a log. A failing
    `copy_to_user` is a boolean input. */
module DmaIoctl {
  import opened Kernel
  import opened DmaMgr

  /** A handler's answer: the pool it leaves, its return code and the value
      it wrote back to user space, if it wrote one. */
  datatype Reply = Reply(pool: Pool, rc: int, copiedOut: Option<nat>)

  /** IOCTL_IOAT_DMA_GET_DEVICE_NUM: copy the `u32` engine counter out. */
  function GetDeviceNum(p: Pool, copyFaults: bool): (r: Reply)
    ensures r.pool == p
    ensures copyFaults ==> r.rc == -EFAULT && r.copiedOut.None?
    ensures !copyFaults ==> r.rc == 0 && r.copiedOut == Some(p.nDevices)
    ensures !copyFaults && Valid(p) && |p.engines| < U32_MODULUS ==> r.copiedOut == Some(|p.engines|)
  {
    if copyFaults then Reply(p, -EFAULT, None) else Reply(p, 0, Some(p.nDevices))
  }

  /** IOCTL_IOAT_DMA_GET_DEVICE: acquire an engine for the caller and copy
      its id out; if that copy faults, release the engine again. */
  function GetDevice(p: Pool, caller: Tgid, copyFaults: bool): (r: Reply)
    ensures r.rc == -ENODEV <==> forall i :: 0 <= i < |p.engines| ==> !IsFree(p.engines[i])
    ensures r.rc == -ENODEV ==> r.pool == p
    ensures r.rc in {0, -ENODEV, -EFAULT}
    ensures r.rc != 0 ==> r.copiedOut.None?
    ensures r.rc == -EFAULT <==> copyFaults && exists i :: 0 <= i < |p.engines| && IsFree(p.engines[i])
    ensures r.rc != 0 && Valid(p) ==> r.pool == p
    ensures r.rc == 0 ==> r.copiedOut.Some? && Owns(r.pool, r.copiedOut.value, caller)
    ensures r.rc == 0 ==>
      && Acquire(p, caller).Ok?
      && r.pool == Acquire(p, caller).value.pool
      && r.copiedOut == Some(r.pool.engines[Acquire(p, caller).value.index].deviceId)
    ensures Valid(p) ==> Valid(r.pool)
  {
    match Acquire(p, caller)
    case Err(e) => Reply(p, -(e as int), None)
    case Ok(a) =>
      if copyFaults then
        AcquireReleaseRollback(p, caller);
        Reply(Release(a.pool, a.index), -EFAULT, None)
      else
        assert Matches(a.pool.engines[a.index], a.pool.engines[a.index].deviceId, caller);
        Reply(a.pool, 0, Some(a.pool.engines[a.index].deviceId))
  }

  /** `enum dma_status` as `dma_async_is_tx_complete` reports it. */
  datatype DmaStatus = DmaComplete | DmaInProgress | DmaPaused | DmaError

  /** The two buffers of a copy. */
  datatype Buffer = Src | Dst

  /** `enum dma_data_direction` values the handler uses. */
  datatype Direction = ToDevice | FromDevice | Bidirectional

  /** One call the submit handler makes into the kernel DMA API. */
  datatype DmaCall =
    | MapPage(buf: Buffer, dir: Direction)
    | PrepMemcpy
    | SubmitDescriptor
    | IssuePending
    | WaitForCompletion
    | QueryStatus
    | UnmapPage(buf: Buffer, dir: Direction)

  /** What the page lookup and the kernel DMA API answer during one submit:
      an error from the page lookup, whether `dmaengine_prep_dma_memcpy`
      built a descriptor, the jiffies left when the 5000 ms wait returned
      (0 means it timed out), and the transfer status queried afterwards. */
  datatype Hardware = Hardware(pageError: Option<Errno>, descriptorBuilt: bool, jiffiesLeft: nat, status: DmaStatus)

  /** The return code and the DMA API calls made, in order. */
  datatype SubmitResult = SubmitResult(rc: int, calls: seq<DmaCall>)

  /** How many map calls for `b` the log holds, in any direction. */
  function Maps(calls: seq<DmaCall>, b: Buffer): nat {
    multiset(calls)[MapPage(b, ToDevice)] + multiset(calls)[MapPage(b, FromDevice)]
      + multiset(calls)[MapPage(b, Bidirectional)]
  }

  /** How many unmap calls for `b` the log holds, in any direction. */
  function Unmaps(calls: seq<DmaCall>, b: Buffer): nat {
    multiset(calls)[UnmapPage(b, ToDevice)] + multiset(calls)[UnmapPage(b, FromDevice)]
      + multiset(calls)[UnmapPage(b, Bidirectional)]
  }

  /** Each buffer is mapped once and unmapped once, and every map comes
      before every unmap. */
  predicate UnmapDiscipline(calls: seq<DmaCall>) {
    && Maps(calls, Src) == 1 && Maps(calls, Dst) == 1
    && Unmaps(calls, Src) == 1 && Unmaps(calls, Dst) == 1
    && forall i, j :: 0 <= i < |calls| && 0 <= j < |calls| && calls[i].MapPage? && calls[j].UnmapPage? ==> i < j
  }

  /** Every unmap of a buffer uses the direction that buffer was mapped with,
      as the DMA API requires of `dma_unmap_page`. */
  predicate DirectionsMatch(calls: seq<DmaCall>) {
    forall i, j ::
      (0 <= i < |calls| && 0 <= j < |calls| && calls[i].MapPage? && calls[j].UnmapPage? && calls[i].buf == calls[j].buf)
      ==> calls[i].dir == calls[j].dir
  }

  /** A call that maps or unmaps a buffer. */
  predicate MapsOrUnmaps(c: DmaCall) {
    c.MapPage? || c.UnmapPage?
  }

  /** The buffers stay mapped while the copy runs: every call that neither
      maps nor unmaps comes before every unmap. */
  predicate UnmapsLast(calls: seq<DmaCall>) {
    forall i, j :: 0 <= i < |calls| && 0 <= j < |calls| && !MapsOrUnmaps(calls[i]) && calls[j].UnmapPage? ==> i < j
  }

  /** The shape of every submit log past the page check: both maps, calls
      that neither map nor unmap, then both unmaps. */
  function Bracketed(mid: seq<DmaCall>, srcDir: Direction, dstDir: Direction): seq<DmaCall> {
    [MapPage(Src, ToDevice), MapPage(Dst, FromDevice)] + mid + [UnmapPage(Src, srcDir), UnmapPage(Dst, dstDir)]
  }

  /** A call that neither maps nor unmaps is in a bracketed log exactly when
      it is in the middle part. */
  lemma BracketedKeepsMiddle(mid: seq<DmaCall>, srcDir: Direction, dstDir: Direction, c: DmaCall)
    requires !MapsOrUnmaps(c)
    ensures c in Bracketed(mid, srcDir, dstDir) <==> c in mid
  {
  }

  /** In a bracketed log whose middle neither maps nor unmaps, the unmaps
      come after everything else. */
  lemma BracketedUnmapsLast(mid: seq<DmaCall>, srcDir: Direction, dstDir: Direction)
    requires forall k :: 0 <= k < |mid| ==> !MapsOrUnmaps(mid[k])
    ensures UnmapsLast(Bracketed(mid, srcDir, dstDir))
  {
  }

  /** A bracketed log keeps the unmap discipline, and its directions match
      exactly when the unmaps use the mapped directions. */
  lemma BracketedDiscipline(mid: seq<DmaCall>, srcDir: Direction, dstDir: Direction)
    requires forall k :: 0 <= k < |mid| ==> !MapsOrUnmaps(mid[k])
    ensures UnmapDiscipline(Bracketed(mid, srcDir, dstDir))
    ensures DirectionsMatch(Bracketed(mid, srcDir, dstDir)) <==> srcDir == ToDevice && dstDir == FromDevice
  {
  }

  /** The return code of a submit, from what the DMA API answered. */
  function SubmitCode(hw: Hardware): int {
    match hw.pageError
    case Some(e) => -(e as int)
    case None =>
      if !hw.descriptorBuilt then -EINVAL
      else if hw.jiffiesLeft == 0 then -ETIMEDOUT
      else if hw.status != DmaComplete then -EBUSY
      else 0
  }

  /** The DMA API calls of a submit whose unmaps use the given directions. */
  function SubmitCalls(hw: Hardware, srcDir: Direction, dstDir: Direction): seq<DmaCall> {
    if hw.pageError.Some? then [] else Bracketed(Middle(hw), srcDir, dstDir)
  }

  /** Past the page check, a submit's log keeps the unmap discipline, its
      directions match exactly when the unmaps use the mapped directions, and
      a descriptor is submitted exactly when one was built. */
  lemma SubmitCallsBracketed(hw: Hardware, srcDir: Direction, dstDir: Direction)
    ensures hw.pageError.Some? ==> SubmitCalls(hw, srcDir, dstDir) == []
    ensures hw.pageError.None? ==> UnmapDiscipline(SubmitCalls(hw, srcDir, dstDir))
    ensures hw.pageError.None? ==>
      (DirectionsMatch(SubmitCalls(hw, srcDir, dstDir)) <==> srcDir == ToDevice && dstDir == FromDevice)
    ensures hw.pageError.None? ==> UnmapsLast(SubmitCalls(hw, srcDir, dstDir))
    ensures hw.pageError.None? ==> PrepMemcpy in SubmitCalls(hw, srcDir, dstDir)
    ensures hw.pageError.None? ==> (SubmitDescriptor in SubmitCalls(hw, srcDir, dstDir) <==> hw.descriptorBuilt)
    ensures hw.pageError.None? && hw.descriptorBuilt ==>
      && IssuePending in SubmitCalls(hw, srcDir, dstDir)
      && WaitForCompletion in SubmitCalls(hw, srcDir, dstDir)
      && QueryStatus in SubmitCalls(hw, srcDir, dstDir)
  {
    if hw.pageError.None? {
      var mid := Middle(hw);
      BracketedDiscipline(mid, srcDir, dstDir);
      BracketedUnmapsLast(mid, srcDir, dstDir);
      BracketedKeepsMiddle(mid, srcDir, dstDir, PrepMemcpy);
      BracketedKeepsMiddle(mid, srcDir, dstDir, SubmitDescriptor);
      BracketedKeepsMiddle(mid, srcDir, dstDir, IssuePending);
      BracketedKeepsMiddle(mid, srcDir, dstDir, WaitForCompletion);
      BracketedKeepsMiddle(mid, srcDir, dstDir, QueryStatus);
    }
  }

  /** The calls between the maps and the unmaps. */
  function Middle(hw: Hardware): (mid: seq<DmaCall>)
    ensures forall k :: 0 <= k < |mid| ==> !MapsOrUnmaps(mid[k])
    ensures PrepMemcpy in mid
    ensures SubmitDescriptor in mid <==> hw.descriptorBuilt
    ensures hw.descriptorBuilt ==> IssuePending in mid && WaitForCompletion in mid && QueryStatus in mid
  {
    [PrepMemcpy] + if hw.descriptorBuilt then [SubmitDescriptor, IssuePending, WaitForCompletion, QueryStatus] else []
  }

  /** IOCTL_IOAT_DMA_SUBMIT's copy (ioat_dma_ioctl_dma_submit), with the
      unmaps using the mapped directions. A page error returns before any
      mapping. Otherwise: no descriptor gives -EINVAL and nothing is
      submitted; a timed-out wait gives -ETIMEDOUT whatever the status; a
      completion whose status is not DMA_COMPLETE gives -EBUSY; else 0. On
      every path past the page check both mappings are undone exactly once,
      after every map. */
  function Submit(hw: Hardware): (r: SubmitResult)
    ensures hw.pageError.Some? ==> r.rc == -(hw.pageError.value as int) && r.calls == []
    ensures hw.pageError.None? && !hw.descriptorBuilt ==> r.rc == -EINVAL && SubmitDescriptor !in r.calls
    ensures hw.pageError.None? && hw.descriptorBuilt && hw.jiffiesLeft == 0 ==> r.rc == -ETIMEDOUT
    ensures hw.pageError.None? && hw.descriptorBuilt && hw.jiffiesLeft > 0 && hw.status != DmaComplete ==> r.rc == -EBUSY
    ensures r.rc == 0 <==> hw.pageError.None? && hw.descriptorBuilt && hw.jiffiesLeft > 0 && hw.status == DmaComplete
    ensures hw.pageError.None? ==> UnmapDiscipline(r.calls) && DirectionsMatch(r.calls)
    ensures hw.pageError.None? ==> (SubmitDescriptor in r.calls <==> hw.descriptorBuilt)
    ensures hw.pageError.None? ==> UnmapsLast(r.calls) && PrepMemcpy in r.calls
    ensures hw.pageError.None? && hw.descriptorBuilt ==>
      IssuePending in r.calls && WaitForCompletion in r.calls && QueryStatus in r.calls
  {
    SubmitCallsBracketed(hw, ToDevice, FromDevice);
    SubmitResult(SubmitCode(hw), SubmitCalls(hw, ToDevice, FromDevice))
  }

  /** The submit handler as the driver writes it: pages mapped DMA_TO_DEVICE
      and DMA_FROM_DEVICE are unmapped DMA_BIDIRECTIONAL. The return code is
      the same as `Submit`'s; the directions never match. */
  function SubmitAsWritten(hw: Hardware): (r: SubmitResult)
    ensures r.rc == Submit(hw).rc
    ensures hw.pageError.None? ==> UnmapDiscipline(r.calls) && !DirectionsMatch(r.calls)
    ensures hw.pageError.None? ==> (SubmitDescriptor in r.calls <==> hw.descriptorBuilt)
    ensures hw.pageError.None? ==> UnmapsLast(r.calls) && PrepMemcpy in r.calls
    ensures hw.pageError.None? && hw.descriptorBuilt ==>
      IssuePending in r.calls && WaitForCompletion in r.calls && QueryStatus in r.calls
  {
    SubmitCallsBracketed(hw, Bidirectional, Bidirectional);
    SubmitResult(SubmitCode(hw), SubmitCalls(hw, Bidirectional, Bidirectional))
  }
}

=== FILE: ioat_dma_mgr.dfy ===
/** The DMA-engine ownership pool (ioat-dma-mgr.c): a list of engine records,
    each owned by at most one process, with discovery, first-fit acquire,
    owner-scoped lookup and release. The list and its counter are global
    mutable state in the driver; here they are an immutable `Pool` and every
    operation returns the pool it leaves behind. The spinlock around acquire
    and release is not modelled: each operation is one atomic step. */
module DmaMgr {
  import opened Kernel

  /** An opaque handle to a hardware DMA channel (`struct dma_chan *`). */
  type Chan = nat

  /** One entry of an engine's completion list. The record's definition is
      not part of this model; its fields here are placeholders. */
  datatype CompletionItem = CompletionItem(cookie: int, srcAddr: nat, dstAddr: nat, size: nat)

  /** One engine record, as the manager uses it (with its completion list). */
  datatype Engine = Engine(deviceId: nat, owner: int, chan: Chan, compList: seq<CompletionItem>)

  /** The global engine list in list order, and the `u32` counter `n_dma_devices`. */
  datatype Pool = Pool(engines: seq<Engine>, nDevices: nat)

  /** The pool before discovery: empty list, zero counter. */
  const EmptyPool: Pool := Pool([], 0)

  /** The acquire scan skips exactly the engines whose owner is positive. */
  predicate IsFree(e: Engine) {
    !(e.owner > 0)
  }

  /** The find test: the id matches and the caller owns the engine. */
  predicate Matches(e: Engine, id: nat, caller: Tgid) {
    e.deviceId == id && e.owner == caller
  }

  /** Some engine with this id is owned by the caller. */
  predicate Owns(p: Pool, id: nat, caller: Tgid) {
    exists i :: 0 <= i < |p.engines| && Matches(p.engines[i], id, caller)
  }

  /** An engine as release leaves it: no owner, no completion entries. */
  function Released(e: Engine): Engine {
    e.(owner := UNOWNED, compList := [])
  }

  /** The pool invariant: ids are the list positions (as `u32`), the counter
      is the list length (as `u32`), every owner is a process or UNOWNED, and
      an unowned engine holds no completion entries. */
  predicate Valid(p: Pool) {
    && p.nDevices == |p.engines| % U32_MODULUS
    && (forall i :: 0 <= i < |p.engines| ==> p.engines[i].deviceId == i % U32_MODULUS)
    && (forall i :: 0 <= i < |p.engines| ==> p.engines[i].owner == UNOWNED || p.engines[i].owner > 0)
    && (forall i :: 0 <= i < |p.engines| && p.engines[i].owner == UNOWNED ==> p.engines[i].compList == [])
  }

  /** `q` is `p` with at most the engine at position `i` replaced. */
  predicate OnlyAt(p: Pool, q: Pool, i: nat) {
    && |q.engines| == |p.engines|
    && q.nDevices == p.nDevices
    && (forall j :: 0 <= j < |p.engines| && j != i ==> q.engines[j] == p.engines[j])
  }

  /** Discovery (create_dma_devices): wrap each channel the platform hands
      out, until its first error, in an unowned engine with an empty
      completion list, numbered by the `u32` counter in discovery order.
      Zero channels is a success too. */
  method CreateDmaDevices(chans: seq<Chan>) returns (p: Pool, rc: int)
    ensures rc == 0
    ensures |p.engines| == |chans|
    ensures forall i :: 0 <= i < |chans| ==> p.engines[i] == Engine(i % U32_MODULUS, UNOWNED, chans[i], [])
    ensures p.nDevices == |chans| % U32_MODULUS
    ensures Valid(p)
    ensures |chans| <= U32_MODULUS ==> forall i :: 0 <= i < |chans| ==> p.engines[i].deviceId == i
  {
    p := EmptyPool;
    var k := 0;
    while k < |chans|
      invariant 0 <= k <= |chans|
      invariant |p.engines| == k
      invariant forall i :: 0 <= i < k ==> p.engines[i] == Engine(i % U32_MODULUS, UNOWNED, chans[i], [])
      invariant p.nDevices == k % U32_MODULUS
    {
      var e := Engine(p.nDevices, UNOWNED, chans[k], []);
      p := Pool(p.engines + [e], (p.nDevices + 1) % U32_MODULUS);
      k := k + 1;
    }
    rc := 0;
  }

  /** The first position at or after `k` whose element satisfies `P`: the
      `list_for_each_entry` scan that stops at the first hit. */
  function FirstWhere<T>(s: seq<T>, P: T -> bool, k: nat): (r: Option<nat>)
    requires k <= |s|
    ensures r.Some? ==> k <= r.value < |s| && P(s[r.value])
    ensures r.Some? ==> forall j :: k <= j < r.value ==> !P(s[j])
    ensures r.None? <==> forall j :: k <= j < |s| ==> !P(s[j])
    decreases |s| - k
  {
    if k == |s| then None
    else if P(s[k]) then Some(k)
    else FirstWhere(s, P, k + 1)
  }

  /** Owner-scoped lookup (find_ioat_dma_device): the position of the first
      engine with this id that the caller owns; none when the id is unknown
      or the engine belongs to someone else, the two cases indistinguishable. */
  function Find(p: Pool, id: nat, caller: Tgid): (r: Option<nat>)
    ensures r.Some? ==> r.value < |p.engines| && Matches(p.engines[r.value], id, caller)
    ensures r.Some? ==> forall j :: 0 <= j < r.value ==> !Matches(p.engines[j], id, caller)
    ensures r.None? <==> !Owns(p, id, caller)
  {
    FirstWhere(p.engines, e => Matches(e, id, caller), 0)
  }

  /** A granted engine: the pool after the grant and the engine's position. */
  datatype Acquired = Acquired(pool: Pool, index: nat)

  /** First-fit acquire (get_available_ioat_dma_device, with the evidently
      intended "no device" result): the first engine in list order that is
      free becomes the caller's; nothing else changes. With no free engine
      the result is -ENODEV. */
  function Acquire(p: Pool, caller: Tgid): (r: Result<Acquired>)
    ensures r.Err? <==> forall i :: 0 <= i < |p.engines| ==> !IsFree(p.engines[i])
    ensures r.Err? ==> r.errno == ENODEV
    ensures r.Ok? ==> r.value.index < |p.engines| && IsFree(p.engines[r.value.index])
    ensures r.Ok? ==> forall j :: 0 <= j < r.value.index ==> !IsFree(p.engines[j])
    ensures r.Ok? ==> OnlyAt(p, r.value.pool, r.value.index)
    ensures r.Ok? ==> r.value.pool.engines[r.value.index] == p.engines[r.value.index].(owner := caller)
    ensures r.Ok? && Valid(p) ==> Valid(r.value.pool)
  {
    match FirstWhere(p.engines, IsFree, 0)
    case None => Err(ENODEV)
    case Some(i) => Ok(Acquired(p.(engines := p.engines[i := p.engines[i].(owner := caller)]), i))
  }

  /** Where the driver's list cursor stands after the acquire scan:
      on an engine, on the list head itself, or NULL. */
  datatype Cursor = Null | AtEngine(index: nat) | AtListHead

  /** Acquire exactly as the driver writes it. When the scan runs off the end
      of the list, `list_for_each_entry` leaves the cursor on the container
      of the list head, which is never NULL, so the "no device" check after
      the loop cannot fire and the caller receives the list head as if it
      were an engine. */
  function AcquireAsWritten(p: Pool, caller: Tgid): (r: (Pool, Cursor))
    ensures r.1 != Null
    ensures r.1 == AtListHead <==> forall i :: 0 <= i < |p.engines| ==> !IsFree(p.engines[i])
    ensures r.1 == AtListHead ==> r.0 == p
    ensures r.1.AtEngine? ==> Acquire(p, caller) == Ok(Acquired(r.0, r.1.index))
  {
    match FirstWhere(p.engines, IsFree, 0)
    case None => (p, AtListHead)
    case Some(i) => (p.(engines := p.engines[i := p.engines[i].(owner := caller)]), AtEngine(i))
  }

  /** The "no device" result as the driver computes it from the cursor. */
  function CursorResult(c: Cursor): Result<Cursor> {
    if c == Null then Err(ENODEV) else Ok(c)
  }

  /** On an exhausted pool, and on the empty pool discovery may produce, the
      driver as written hands back the list head instead of -ENODEV, while
      the intended acquire reports -ENODEV. */
  lemma AcquireAsWrittenMissesNoDevice(p: Pool, caller: Tgid)
    requires forall i :: 0 <= i < |p.engines| ==> p.engines[i].owner > 0
    ensures CursorResult(AcquireAsWritten(p, caller).1) == Ok(AtListHead)
    ensures Acquire(p, caller) == Err(ENODEV)
  {
  }

  /** Release (release_ioat_dma_device): the engine loses its owner and its
      completion entries are discarded; no other engine changes. */
  function Release(p: Pool, i: nat): (r: Pool)
    requires i < |p.engines|
    ensures OnlyAt(p, r, i)
    ensures r.engines[i].owner == UNOWNED && r.engines[i].compList == []
    ensures r.engines[i].deviceId == p.engines[i].deviceId && r.engines[i].chan == p.engines[i].chan
    ensures IsFree(r.engines[i])
    ensures Valid(p) ==> Valid(r)
  {
    p.(engines := p.engines[i := Released(p.engines[i])])
  }

  /** Under the invariant and within `u32` range, an engine's id is its
      position, so the ids are unique and dense. */
  lemma IdsDense(p: Pool)
    requires Valid(p) && |p.engines| <= U32_MODULUS
    ensures forall i :: 0 <= i < |p.engines| ==> p.engines[i].deviceId == i
    ensures forall i, j :: 0 <= i < j < |p.engines| ==> p.engines[i].deviceId != p.engines[j].deviceId
  {
  }

  /** With dense ids, find by the owner returns exactly the owned engine. */
  lemma FindOwnedEngine(p: Pool, i: nat, caller: Tgid)
    requires Valid(p) && |p.engines| <= U32_MODULUS
    requires i < |p.engines| && p.engines[i].owner == caller
    ensures Find(p, i, caller) == Some(i)
  {
  }

  /** After a successful acquire, the acquiring process finds the engine by
      the id it was given, and every other process is refused. */
  lemma AcquireThenFind(p: Pool, caller: Tgid, other: Tgid)
    requires Valid(p) && |p.engines| <= U32_MODULUS
    requires Acquire(p, caller).Ok?
    requires other != caller
    ensures var a := Acquire(p, caller).value;
      && Find(a.pool, a.pool.engines[a.index].deviceId, caller) == Some(a.index)
      && Find(a.pool, a.pool.engines[a.index].deviceId, other) != Some(a.index)
  {
  }

  /** Rolling back a grant: on a valid pool, releasing the engine just
      acquired restores the pool exactly. */
  lemma AcquireReleaseRollback(p: Pool, caller: Tgid)
    requires Acquire(p, caller).Ok?
    ensures var a := Acquire(p, caller).value; Valid(p) ==> Release(a.pool, a.index) == p
  {
  }

  /** Ownership cycles: once an engine is released, any process's acquire succeeds. */
  lemma ReleaseThenAcquire(p: Pool, i: nat, caller: Tgid)
    requires i < |p.engines|
    ensures Acquire(Release(p, i), caller).Ok?
    ensures Acquire(Release(p, i), caller).value.index <= i
  {
  }

  /** The number of engines the acquire scan would accept. */
  function FreeCount(s: seq<Engine>): nat {
    if s == [] then 0 else (if IsFree(s[0]) then 1 else 0) + FreeCount(s[1..])
  }

  lemma {:induction false} FreeCountZero(s: seq<Engine>)
    ensures FreeCount(s) == 0 <==> forall i :: 0 <= i < |s| ==> !IsFree(s[i])
  {
    if s != [] {
      FreeCountZero(s[1..]);
      assert forall i :: 1 <= i < |s| ==> s[i] == s[1..][i - 1];
    }
  }

  lemma {:induction false} FreeCountTake(s: seq<Engine>, i: nat, x: Engine)
    requires i < |s| && IsFree(s[i]) && !IsFree(x)
    ensures FreeCount(s[i := x]) == FreeCount(s) - 1
  {
    if i == 0 {
      assert s[i := x][1..] == s[1..];
    } else {
      FreeCountTake(s[1..], i - 1, x);
      assert s[i := x][1..] == s[1..][i - 1 := x];
    }
  }

  /** Every successful acquire uses up exactly one free engine. */
  lemma AcquireConsumesOne(p: Pool, caller: Tgid)
    requires Acquire(p, caller).Ok?
    ensures FreeCount(Acquire(p, caller).value.pool.engines) == FreeCount(p.engines) - 1
  {
    var a := Acquire(p, caller).value;
    assert a.pool.engines == p.engines[a.index := p.engines[a.index].(owner := caller)];
    FreeCountTake(p.engines, a.index, p.engines[a.index].(owner := caller));
  }

  /** The outcome of a run of acquires, one per process in order. */
  datatype Batch = Batch(pool: Pool, granted: nat)

  function AcquireMany(p: Pool, callers: seq<Tgid>): Batch
    decreases |callers|
  {
    if callers == [] then Batch(p, 0)
    else match Acquire(p, callers[0])
      case Err(_) => AcquireMany(p, callers[1..])
      case Ok(a) =>
        var b := AcquireMany(a.pool, callers[1..]);
        Batch(b.pool, b.granted + 1)
  }

  /** With F free engines, a run of k acquires grants exactly min(k, F): the
      (F+1)-th caller is told there is no device. */
  lemma {:induction false} AcquireManyGrants(p: Pool, callers: seq<Tgid>)
    ensures AcquireMany(p, callers).granted
      == if |callers| <= FreeCount(p.engines) then |callers| else FreeCount(p.engines)
    decreases |callers|
  {
    if callers != [] {
      FreeCountZero(p.engines);
      match Acquire(p, callers[0])
      case Err(_) =>
        AcquireManyGrants(p, callers[1..]);
      case Ok(a) =>
        AcquireConsumesOne(p, callers[0]);
        AcquireManyGrants(a.pool, callers[1..]);
    }
  }
}

=== FILE: kernel.dfy ===
/** Kernel vocabulary shared by the driver model: the errno values the driver
    returns (negated, as Linux system calls do), the identity of a calling
    process, fixed integer widths and the failure-carrying wrappers. */
module Kernel {

  /** Linux errno numbers (asm-generic/errno-base.h, asm-generic/errno.h). */
  const EFAULT: int := 14
  const EBUSY: int := 16
  const ENODEV: int := 19
  const EINVAL: int := 22
  const ETIMEDOUT: int := 110

  /** Largest errno an `ERR_PTR` can carry (MAX_ERRNO in linux/err.h). */
  const MAX_ERRNO: int := 4095

  /** `u32` values live in [0, U32_MODULUS). */
  const U32_MODULUS: nat := 0x1_0000_0000

  /** The owner value of an engine no process holds. */
  const UNOWNED: int := -1

  /** A thread-group id (`current->tgid`): always positive for a user process. */
  type Tgid = t: int | 0 < t witness 1

  /** A positive errno small enough to be carried inside an `ERR_PTR`. */
  type Errno = e: int | 0 < e <= MAX_ERRNO witness 1

  datatype Option<+T> = None | Some(value: T)

  /** A pointer-or-`ERR_PTR` result: `Err` carries the positive errno. */
  datatype Result<+T> = Ok(value: T) | Err(errno: Errno)
}
